=== FILE: README.md ===
# graph: resampling and axis scaling, in Dafny

`graph` turns one or two files of event timestamps into a browser chart.
Its logic lives in `graph.go`:

- `resample` folds sorted millisecond timestamps into fixed-width buckets of
  `(Time, Count)`. In delta mode the count restarts in each bucket. In
  cumulative mode it carries over. Each counted event adds `multiply`.
- The handler picks a bucket width from the span of the data when the
  request names none: 1 s under an hour, 5 min under a week, 24 h beyond.
- `percentile95` reads the count at index `len/20` of the buckets sorted by
  count, highest first.
- With two files, the chart gets two Y axes when either truncating quotient
  of the two percentiles exceeds 5.

This project models that core as pure functions over `seq` and proves what
they compute. The modules:

- `GoInt` (go_int.dfy): Go's truncating integer division `Quot`, pinned
  down by its remainder property, and the facts the ratio test needs.
- `Durations` (durations.dfy): `time.Duration` constants in nanoseconds, the
  millisecond width `resample` derives from a duration, and width inference.
- `Sorting` (sorting.dfy): `sortInt64s` as an insertion sort. It is
  characterised as the unique ascending permutation.
- `Resampling` (resampling.dfy): the bucket state (`Sample`, `Bucketing`),
  one loop step, the fold `Run`, `Resample`, and `ResampleLoop`, the loop
  exactly as written, proved equal to the fold.
- `ResampleProperties` (resample_props.dfy): what the fold guarantees.
  - Bucket starts: where each bucket begins and how far apart they are.
  - Emptiness: exactly when the output is empty.
  - Delta-mode conservation: where every event's count goes.
  - Scaling by `multiply` and cumulative monotonicity.
  - Counts for sorted input against an independent counting definition:
    `InWindow` counts timestamps in a window, `Below` counts those before a
    point.
  - The degenerate sub-millisecond width.
- `Percentile` (percentile.dfy): `percentile95`, characterised by rank. More
  than `len/20` buckets reach the result and at most `len/20` exceed it, so
  the result does not depend on the tie order of Go's unstable sort.
  Sequences are values, so the caller's buckets are left unchanged, as the
  source ensures by sorting a copy.
- `Axes` (axes.dfy): the two-axes test as a closed-form condition on
  magnitudes and signs.
- `Handler` (handler.dfy): the pure part of the HTTP handler, with its
  failures as values.
  - `NoData` stands for the "no data to display" response.
  - `IndexOutOfRange` stands for `percentile95` of an empty bucket list.
  - `DivideByZero` stands for a zero percentile used as a divisor.
  - The handler's other pieces: the single-series path, the two-series path,
    and the axis decision in Go's evaluation order.

Behaviour of `graph.go` worth noting, which the model keeps:

- `resample` does not sort; callers sort first (graph.go:112, 150, 188, 204).
- All timestamps within one window give an empty result: the last, open
  bucket is always dropped (`ResampleEmptyIffOneWindow`).
- A zero percentile reaches an unguarded integer division, a runtime panic
  (`AxisDecision`, `RatioTest`).
- A requested width under one millisecond is accepted. It truncates to zero,
  so every sorted timestamp closes the open bucket and opens a new one at
  itself, and every count is zero. The first timestamp closes the initial
  bucket, which also starts there, so `times[0]` starts two buckets, then
  come `times[1]` to `times[n-2]`; the last timestamp's bucket is dropped
  (`ResampleSubMillisecond`, `SubMillisecondExample`).

## Model

| member | source | states |
|---|---|---|
| GoInt.Quot | graph.go:36 | Go's `/` on integers: the remainder `a - b*q` is smaller than `b` in magnitude and is zero or has the sign of `a` (truncation toward zero) |
| GoInt.QuotUnique | graph.go:36 | these remainder conditions determine the quotient, so `Quot` is the only truncating division |
| GoInt.QuotExceeds | graph.go:232 | `a/b > k` under truncation iff `a` and `b` are non-zero with the same sign and abs(a) is at least (k+1) times abs(b) |
| Durations.InferDuration | graph.go:118-127 | the inferred width is one of 1 s, 5 min, 24 h; it is 1 s iff the span is under an hour and 24 h iff the span is at least 168 hours; it is a whole number of milliseconds |
| Durations.InferMonotone | graph.go:118-127 | a longer span never yields a narrower width |
| Durations.InferBoundaries | graph.go:120-125 | 3,599,999 ms and 0 ms give 1 s; 3,600,000 ms and 604,799,999 ms give 5 min; 604,800,000 ms gives 24 h |
| Sorting.SortAscending | graph.go:81-85 | the result is ascending and a permutation of the input |
| Sorting.AscendingUnique | graph.go:81-85 | two ascending permutations of one multiset are equal, so the unstable sort's result is determined |
| Sorting.SortIdentity | graph.go:81-85 | sorting an ascending slice leaves it unchanged |
| Sorting.SortOrderIndependent | graph.go:81-85 | permuted inputs sort to the same slice |
| Resampling.Step | graph.go:36-44 | one loop iteration either keeps the emitted buckets or appends the open one, and it appends exactly when `t` is not before the open bucket's end |
| Resampling.Resample | graph.go:27-47 | empty input gives empty output; with a width of at least 1 ms fewer buckets than timestamps come out, since the last open bucket is dropped |
| Resampling.ResampleLoop | graph.go:27-47 | the loop as written, with `continue` and in-place updates of `current`, computes `Resample` |
| ResampleProperties.ResampleStarts | graph.go:32-41 | with a width of at least 1 ms, the first bucket starts at `times[0]`; starts are strictly increasing and at least one width apart; each start is an input timestamp |
| ResampleProperties.ResampleSpanBound | graph.go:35-46 | with a width of at least 1 ms and sorted input, the emitted buckets times the width fit within last minus first timestamp |
| ResampleProperties.ResampleEmptyIffOneWindow | graph.go:35-46 | the result is empty iff every timestamp is before `times[0] + width` |
| ResampleProperties.DeltaConservation | graph.go:36-44 | in delta mode, emitted counts plus the dropped bucket's count are `multiply` for each timestamp that did not close a bucket; the `len(result)` timestamps that each append a bucket and open the next one (the last of them opens the dropped bucket) are not counted |
| ResampleProperties.DeltaCountBound | graph.go:36-46 | in delta mode with `multiply >= 0`, the emitted counts total between 0 and `multiply * (len(times) - len(result))` |
| ResampleProperties.MultiplyScales | graph.go:37 | `multiply` leaves bucket starts and their number unchanged and scales each count of the `multiply = 1` run, whose counts are non-negative |
| ResampleProperties.FirstBucketCount | graph.go:32-38 | with a positive width and `multiply >= 0`, the first bucket counts its own opening timestamp, so its count is at least `multiply` |
| ResampleProperties.CumulativeNonDecreasing | graph.go:41-44 | in cumulative mode with `multiply >= 0`, counts are non-negative and non-decreasing |
| ResampleProperties.ResampleCounts | graph.go:35-46 | with a width of at least 1 ms and sorted input, bucket `i` holds `multiply` per timestamp in its window, less its opening one for `i > 0` (delta), or per timestamp before its end less `i` (cumulative) |
| ResampleProperties.ResampleSubMillisecond | graph.go:35-44 | a width truncating to 0 ms or less gives as many buckets as sorted timestamps, all with count 0, starting at `times[0]` twice and then at `times[1]` to `times[n-2]` |
| ResampleProperties.SubMillisecondExample | graph.go:35-46 | half a millisecond over `[0, 10, 20]` gives buckets starting at 0, 0 and 10, all with count 0 |
| Percentile.SortByCountDescending | graph.go:73-77 | the sorted copy is in non-increasing count order and is a permutation of the buckets |
| Percentile.AtLeastSorted | graph.go:73-77 | sorting does not change how many buckets reach any threshold |
| Percentile.P95 | graph.go:72-79 | the result is one of the counts; more than `len/20` buckets reach it and at most `len/20` exceed it |
| Percentile.P95Unique | graph.go:75-78 | only one value meets those rank conditions, whatever order ties are sorted in |
| Percentile.P95OfShortSeries | graph.go:78 | under 20 buckets the percentile is the largest count |
| Axes.TwoAxes | graph.go:231-232 | `p1/p2 > 5` or `p2/p1 > 5` holds iff the percentiles have the same sign and one is at least six times the other in magnitude |
| Axes.TwoAxesSymmetric | graph.go:232 | swapping the two series does not change the decision |
| Axes.TwoAxesBoundary | graph.go:231-232 | a ratio of exactly 6 gives two axes and a ratio just below 6 does not |
| Axes.TwoAxesPositive | graph.go:231-232 | for positive percentiles: the larger is at least six times the smaller |
| Handler.ChooseDuration | graph.go:118-127 | a requested non-zero duration is kept; otherwise the width is 1 s iff the sorted span is under an hour, 24 h iff it is at least 168 hours, and 5 min in between |
| Handler.Series | graph.go:112-128 | a request fails with "no data to display" iff there are no timestamps |
| Handler.SeriesOrderIndependent | graph.go:150-166 | the chart does not depend on the order of the input lines |
| Handler.SeriesAutoDensity | graph.go:156-166 | with an inferred width: under 3600 buckets below an hour of span, under 2016 below a week, at most one per day of span beyond |
| Handler.RatioTest | graph.go:232 | Go's short-circuit evaluation panics with a division by zero iff either percentile is zero; otherwise it gives the two-axes condition |
| Handler.AxisDecision | graph.go:231-234 | an empty bucket list panics on the index; otherwise a zero percentile panics on the division; otherwise the result is the two-axes condition on the two percentiles |
| Handler.TwoSeries | graph.go:188-234 | the request fails with no data iff either file has no timestamps; otherwise both files are sorted and resampled with the duration chosen from the first, and the chart is produced exactly when `AxisDecision` of the two series succeeds, its panic propagating otherwise; series 1 is the single-series result |
| Handler.SingleTimestampFirstSeriesPanics | graph.go:221-232 | with a width of at least 1 ms, a first file of one timestamp gives no buckets, so the request panics on the percentile index |
| Handler.SecondSeriesUsesFirstDuration | graph.go:210-222 | the second series is resampled with the duration chosen from the first series' span |
| Handler.ShortSeriesPercentilePositive | graph.go:78 | with `multiply >= 1`, a width of at least 1 ms and 1 to 19 buckets, the percentile is at least `multiply`, so it cannot cause a division by zero |

## Left out

- Parsing (`timestamps`, graph.go:49-70): reading lines, RFC 3339 parsing and the `*1000` seconds-to-milliseconds scaling are input I/O. The model starts from the parsed `int64` slice.
- `main`, flags, stdin detection, the `httptest` server, `exec.Command("open", …)` and `select {}` (graph.go:87-246) are process and network plumbing. Reading the form values is left out too; the requested duration, `multiply` and `cumulative` are parameters.
- Titles and axis labels (`strings.TrimSuffix` of file names) and template execution are rendering only.
- The stdin and single-file branches (graph.go:106-175) differ only in I/O and labels. `Handler.Series` models both.
- Resampling.Resample: `int64` wrap-around of `current.Time + width` and of the counts is not modelled; integers are unbounded.
- Durations.InferDuration: requires the span to be at most `MaxInt64 / Millisecond` ms, where the conversion at graph.go:119 would overflow. An input of that span (about 292 years) is not modelled.
- Handler.RatioTest: `MinInt64 / -1`, which wraps in Go, is not modelled because quotients are unbounded.
- ResampleProperties.DeltaCountBound: stated for `multiply >= 0` only, although any `int64` multiplier is accepted. `MultiplyScales` covers negative multipliers.
- ResampleProperties.CumulativeNonDecreasing: stated for `multiply >= 0` only; with a negative multiplier the counts fall.
- ResampleProperties.ResampleCounts: stated for sorted input only, which is what every caller passes. `ResampleStarts` holds for any input.
- Sorting.SortAscending: Go's `sort.Slice` algorithm is not modelled. An insertion sort stands for it, which suffices because the ascending permutation is unique (`AscendingUnique`).
- Percentile.SortByCountDescending: the tie order of Go's unstable sort is not modelled. `P95` is stated through rank conditions that do not depend on it (`P95Unique`).

=== FILE: axes.dfy ===
/**
 The two-axes decision of the two-series chart.

 The handler compares the 95th-percentile counts of the two series with Go's
 truncating integer division: two axes are drawn when either quotient exceeds
 5. A zero percentile makes one of the divisions a division by zero in the
 source, so `TwoAxes` requires both to be non-zero.
 */
module Axes {
  import opened GoInt

  /** `thresholdFor2Axes`. */
  const Threshold: nat := 5

  /** `p1/p2 > 5 || p2/p1 > 5` in Go. It holds exactly when the two
      percentiles have the same sign and one is at least six times the other
      in magnitude. */
  function TwoAxes(p1: int, p2: int): (two: bool)
    requires p1 != 0 && p2 != 0
    ensures two <==> (p1 > 0 <==> p2 > 0) && (Abs(p1) >= 6 * Abs(p2) || Abs(p2) >= 6 * Abs(p1))
  {
    QuotExceeds(p1, p2, Threshold);
    QuotExceeds(p2, p1, Threshold);
    Quot(p1, p2) > Threshold || Quot(p2, p1) > Threshold
  }

  /** Swapping the two series does not change the decision. */
  lemma TwoAxesSymmetric(p1: int, p2: int)
    requires p1 != 0 && p2 != 0
    ensures TwoAxes(p1, p2) == TwoAxes(p2, p1)
  {
  }

  /** For positive percentiles the test is `max >= 6 * min`. */
  lemma TwoAxesPositive(p1: int, p2: int)
    requires p1 > 0 && p2 > 0
    ensures TwoAxes(p1, p2) <==>
      (if p1 >= p2 then p1 >= 6 * p2 else p2 >= 6 * p1)
  {
  }

  /** A ratio of exactly 6 splits the axes; anything below does not. */
  lemma TwoAxesBoundary(p: int)
    requires p > 0
    ensures TwoAxes(6 * p, p)
    ensures !TwoAxes(6 * p - 1, p)
  {
  }
}

=== FILE: durations.dfy ===
/**
 Bucket durations and their automatic choice.

 Durations are Go `time.Duration` values: integer nanoseconds. Timestamps and
 spans between them are integer milliseconds. When a request names no sample
 duration, the handler picks one of three fixed widths from the span of the
 sorted timestamps.
 */
module Durations {
  import opened GoInt

  const Millisecond: int := 1_000_000
  const Second: int := 1000 * Millisecond
  const Minute: int := 60 * Second
  const Hour: int := 60 * Minute

  /** Largest span, in milliseconds, whose conversion to a duration in
      nanoseconds still fits in an `int64`. */
  const MaxSpanMs: int := MaxInt64 / Millisecond

  /** The three widths the inference can choose, in milliseconds. */
  const FineMs: int := 1_000
  const MediumMs: int := 300_000
  const CoarseMs: int := 86_400_000

  /** Span breakpoints in milliseconds: one hour and one week. */
  const HourMs: int := 3_600_000
  const WeekMs: int := 604_800_000

  /** The width, in whole milliseconds, that `resample` uses for duration `d`. */
  function WidthMs(d: int): int {
    Quot(d, Millisecond)
  }

  /** The duration chosen for a span of `spanMs` milliseconds: the span is
      turned into a duration and compared against one hour and 168 hours. */
  function InferDuration(spanMs: int): (d: int)
    requires 0 <= spanMs <= MaxSpanMs
    ensures WidthMs(d) == FineMs || WidthMs(d) == MediumMs || WidthMs(d) == CoarseMs
    ensures WidthMs(d) == FineMs <==> spanMs < HourMs
    ensures WidthMs(d) == CoarseMs <==> spanMs >= WeekMs
    ensures d == WidthMs(d) * Millisecond
  {
    var distance := spanMs * Millisecond;
    if distance < Hour then Second
    else if distance < 168 * Hour then 5 * Minute
    else 24 * Hour
  }

  /** A longer span never yields a narrower bucket. */
  lemma InferMonotone(span1: int, span2: int)
    requires 0 <= span1 <= span2 <= MaxSpanMs
    ensures InferDuration(span1) <= InferDuration(span2)
    ensures WidthMs(InferDuration(span1)) <= WidthMs(InferDuration(span2))
  {
  }

  /** The tier boundaries are inclusive on their lower end. */
  lemma InferBoundaries()
    ensures WidthMs(InferDuration(3_599_999)) == FineMs
    ensures WidthMs(InferDuration(3_600_000)) == MediumMs
    ensures WidthMs(InferDuration(604_799_999)) == MediumMs
    ensures WidthMs(InferDuration(604_800_000)) == CoarseMs
    ensures WidthMs(InferDuration(0)) == FineMs
  {
  }
}

=== FILE: go_int.dfy ===
/**
 Go integer arithmetic that differs from Dafny's mathematical integers.

 Go's `/` on integers truncates the quotient toward zero, whereas Dafny's `/`
 is Euclidean. The two agree when both operands are non-negative; the axis
 decision and the bucket-width conversion both divide, so the model spells the
 Go operator out once here.
 */
module GoInt {

  /** Largest value of Go's `int64`. */
  const MaxInt64: int := 0x7fff_ffff_ffff_ffff

  function Abs(x: int): (a: nat)
    ensures a == x || a == -x
  {
    if x < 0 then -x else x
  }

  /** Go's `a / b` for integers: the quotient truncated toward zero.
      Go defines it by the remainder `a - b * q`, which is smaller than `b`
      in magnitude and carries the sign of the dividend `a`. */
  function Quot(a: int, b: int): (q: int)
    requires b != 0
    ensures Abs(a - b * q) < Abs(b)
    ensures a - b * q == 0 || (a - b * q < 0 <==> a < 0)
  {
    var m := Abs(a) / Abs(b);
    TruncatedRemainder(a, b, m);
    if (a < 0) == (b < 0) then m else -m
  }

  /** The remainder left by the truncated quotient `m` of the magnitudes is
      the remainder of the magnitudes, signed like the dividend. */
  lemma TruncatedRemainder(a: int, b: int, m: int)
    requires b != 0
    requires m == Abs(a) / Abs(b)
    ensures a - b * (if (a < 0) == (b < 0) then m else -m) == (if a < 0 then -(Abs(a) % Abs(b)) else Abs(a) % Abs(b))
  {
    var x: int, y: int := Abs(a), Abs(b);
    assert x == y * m + x % y;
    if a < 0 && b < 0 {
      assert a == -x && b == -y;
      assert b * m == -(y * m);
    } else if a < 0 {
      assert a == -x && b == y;
      assert b * -m == -(y * m);
    } else if b < 0 {
      assert a == x && b == -y;
      assert b * -m == y * m;
    } else {
      assert a == x && b == y;
    }
  }

  /** The quotient is the only value with Go's remainder properties: `Quot`
      is Go's division and no other. */
  lemma {:induction false} QuotUnique(a: int, b: int, q: int)
    requires b != 0
    requires Abs(a - b * q) < Abs(b)
    requires a - b * q == 0 || (a - b * q < 0 <==> a < 0)
    ensures q == Quot(a, b)
  {
    var q0 := Quot(a, b);
    if q != q0 {
      // the two remainders differ by a non-zero multiple of b, yet lie on the same side of zero
      assert (a - b * q) - (a - b * q0) == b * (q0 - q);
      MultipleAtLeastDivisor(b, q0 - q);
      assert false;
    }
  }

  /** A non-zero multiple of `b` is at least `b` in magnitude. */
  lemma MultipleAtLeastDivisor(b: int, k: int)
    requires k != 0
    ensures Abs(b * k) >= Abs(b)
  {
    var x: int, y: int := Abs(b), Abs(k);
    assert y >= 1;
    assert x * y >= x by { assert x * y - x == x * (y - 1); }
    if b < 0 && k < 0 {
      assert b * k == x * y;
    } else if b < 0 {
      assert b * k == -(x * y);
    } else if k < 0 {
      assert b * k == -(x * y);
    } else {
      assert b * k == x * y;
    }
  }

  /** `a / b` exceeds a threshold `k` in Go exactly when the operands have the
      same sign and `|a|` reaches `(k + 1) * |b|`. */
  lemma QuotExceeds(a: int, b: int, k: nat)
    requires b != 0
    ensures Quot(a, b) > k <==> a != 0 && (a > 0 <==> b > 0) && Abs(a) >= (k + 1) * Abs(b)
  {
    var q := QuotOfMagnitudes(a, b);
    DivAtLeast(Abs(a), Abs(b), k + 1);
    if (a < 0) == (b < 0) {
      assert Quot(a, b) == q;
    } else {
      assert Quot(a, b) == -q;
    }
  }

  /** `Quot` divides the magnitudes and restores the sign. */
  lemma QuotOfMagnitudes(a: int, b: int) returns (q: int)
    requires b != 0
    ensures q >= 0 && q == Abs(a) / Abs(b)
    ensures Quot(a, b) == if (a < 0) == (b < 0) then q else -q
  {
    q := Abs(a) / Abs(b);
  }

  /** For non-negative `x` and positive `y`: `x / y >= k` iff `x >= k * y`. */
  lemma DivAtLeast(x: nat, y: nat, k: nat)
    requires y > 0
    ensures x / y >= k <==> x >= k * y
  {
    var q, r := x / y, x % y;
    assert x == y * q + r && 0 <= r < y;
    if q >= k {
      assert y * q >= y * k by { assert y * q - y * k == y * (q - k); }
    } else {
      assert q + 1 <= k;
      assert y * (q + 1) <= y * k by { assert y * k - y * (q + 1) == y * (k - (q + 1)); }
    }
  }
}

=== FILE: handler.dfy ===
/**
 The pure fragments of the HTTP handler in `graph.go`.

 For each request the handler sorts the parsed timestamps, rejects an empty
 slice with "no data to display", picks a duration when the request gave
 none, and resamples. With two files it picks the duration from the first
 file's span, resamples both files with it, and decides on two axes from the
 two 95th percentiles. Reading files, parsing lines, HTTP and the chart
 templates are not modelled: the handler's inputs are the parsed timestamp
 slices and the parsed `sample` duration.

 The source does not guard `percentile95` against an empty bucket list nor the
 ratio test against a zero percentile; both are Go runtime panics, modelled
 here as the failures `IndexOutOfRange` and `DivideByZero`.
 */
module Handler {
  import opened GoInt
  import opened Durations
  import opened Sorting
  import opened Resampling
  import opened ResampleProperties
  import opened Percentile
  import opened Axes

  /** Why a request produces no chart. */
  datatype Failure =
    | NoData            // "no data to display", HTTP 500
    | IndexOutOfRange   // runtime panic: `percentile95` of no buckets
    | DivideByZero      // runtime panic: a percentile of zero as divisor

  datatype Result<T> = Ok(value: T) | Err(failure: Failure)

  /** What the two-series template receives, less titles and labels. */
  datatype Chart = Chart(data1: seq<Sample>, data2: seq<Sample>, twoAxes: bool)

  /** No two timestamps are further apart than `MaxSpanMs`, so the span of
      the sorted slice converts to a duration without overflow. */
  predicate SpanFits(raw: seq<int>) {
    forall i, j :: 0 <= i < |raw| && 0 <= j < |raw| ==> raw[i] - raw[j] <= MaxSpanMs
  }

  /** Distance in milliseconds from the first to the last timestamp. */
  function Span(times: seq<int>): int
    requires times != []
  {
    times[|times| - 1] - times[0]
  }

  /** Sorting keeps the timestamps, so an empty sort means empty input and the
      sorted span is a difference of two input timestamps. */
  lemma SortedSpan(raw: seq<int>)
    ensures SortAscending(raw) == [] <==> raw == []
    ensures SpanFits(raw) && raw != [] ==> 0 <= Span(SortAscending(raw)) <= MaxSpanMs
  {
    var times := SortAscending(raw);
    assert |times| == |multiset(times)| == |multiset(raw)| == |raw|;
    if raw != [] && SpanFits(raw) {
      assert times[0] in multiset(raw);
      assert times[|times| - 1] in multiset(raw);
      var i :| 0 <= i < |raw| && raw[i] == times[|times| - 1];
      var j :| 0 <= j < |raw| && raw[j] == times[0];
      assert raw[i] - raw[j] <= MaxSpanMs;
    }
  }

  /** The duration the handler resamples with: the requested one, or one
      inferred from the span when the request gave none (or an unparsable
      one, which `time.ParseDuration` reports as zero). */
  function ChooseDuration(requested: int, times: seq<int>): (d: int)
    requires times != [] && Ascending(times)
    requires requested == 0 ==> Span(times) <= MaxSpanMs
    ensures d != 0
    ensures requested != 0 ==> d == requested
    ensures requested == 0 ==> WidthMs(d) == FineMs || WidthMs(d) == MediumMs || WidthMs(d) == CoarseMs
    ensures requested == 0 ==> (WidthMs(d) == FineMs <==> Span(times) < HourMs)
    ensures requested == 0 ==> (WidthMs(d) == CoarseMs <==> Span(times) >= WeekMs)
  {
    if requested == 0 then InferDuration(Span(times)) else requested
  }

  /** The duration a request uses for the timestamps `raw`, which are
      sorted first. */
  function DurationFor(raw: seq<int>, requested: int): (d: int)
    requires raw != []
    requires requested == 0 ==> SpanFits(raw)
    ensures d != 0
    ensures requested != 0 ==> d == requested
  {
    SortedSpan(raw);
    ChooseDuration(requested, SortAscending(raw))
  }

  /** One series (`graph.go` lines 112-128 and 150-166): sort, reject empty
      input, choose a duration, resample. */
  function Series(raw: seq<int>, requested: int, multiply: int, cumulative: bool): (r: Result<seq<Sample>>)
    requires requested == 0 ==> SpanFits(raw)
    ensures r.Err? <==> raw == []
    ensures r.Err? ==> r.failure == NoData
  {
    SortedSpan(raw);
    var times := SortAscending(raw);
    if times == [] then Err(NoData)
    else Ok(Resample(times, DurationFor(raw, requested), multiply, cumulative))
  }

  /** The chart does not depend on the order of the input lines. */
  lemma SeriesOrderIndependent(raw1: seq<int>, raw2: seq<int>, requested: int, multiply: int, cumulative: bool)
    requires multiset(raw1) == multiset(raw2)
    requires requested == 0 ==> SpanFits(raw1) && SpanFits(raw2)
    ensures Series(raw1, requested, multiply, cumulative) == Series(raw2, requested, multiply, cumulative)
  {
    SortOrderIndependent(raw1, raw2);
  }

  /** With an inferred duration the number of buckets stays bounded by the
      tier: under 3600 for spans under an hour, under 2016 for spans from an
      hour up to a week, and at most one per day of span beyond. */
  lemma SeriesAutoDensity(raw: seq<int>, multiply: int, cumulative: bool)
    requires raw != [] && SpanFits(raw)
    ensures var r := Series(raw, 0, multiply, cumulative).value;
      var span := Span(SortAscending(raw));
      && (span < HourMs ==> |r| < 3_600)
      && (HourMs <= span < WeekMs ==> |r| < 2_016)
      && (span >= WeekMs ==> |r| * CoarseMs <= span)
  {
    SortedSpan(raw);
    var times := SortAscending(raw);
    assert Series(raw, 0, multiply, cumulative).value == Resample(times, ChooseDuration(0, times), multiply, cumulative);
    AutoDensity(times, multiply, cumulative);
  }

  /** `SeriesAutoDensity` for an already sorted slice. */
  lemma AutoDensity(times: seq<int>, multiply: int, cumulative: bool)
    requires times != [] && Ascending(times)
    requires Span(times) <= MaxSpanMs
    ensures var r := Resample(times, ChooseDuration(0, times), multiply, cumulative);
      && (Span(times) < HourMs ==> |r| < 3_600)
      && (HourMs <= Span(times) < WeekMs ==> |r| < 2_016)
      && (Span(times) >= WeekMs ==> |r| * CoarseMs <= Span(times))
  {
    var d := ChooseDuration(0, times);
    var n := |Resample(times, d, multiply, cumulative)|;
    var w := WidthMs(d);
    ResampleSpanBound(times, d, multiply, cumulative);
    assert n * w <= Span(times);
    if Span(times) < HourMs {
      assert w == FineMs;
      assert n * 1_000 < 3_600_000;
    } else if Span(times) < WeekMs {
      assert w == MediumMs;
      assert n * 300_000 < 604_800_000;
    } else {
      assert w == CoarseMs;
    }
  }

  /** `p1/p2 > 5 || p2/p1 > 5` as Go evaluates it: the left quotient first,
      the right one only when the left does not exceed the threshold. A zero
      divisor reached on the way panics. */
  function RatioTest(p1: int, p2: int): (r: Result<bool>)
    ensures r == Err(DivideByZero) <==> p1 == 0 || p2 == 0
    ensures r.Ok? || r == Err(DivideByZero)
    ensures r.Ok? ==> (r.value <==> (p1 > 0 <==> p2 > 0) && (Abs(p1) >= 6 * Abs(p2) || Abs(p2) >= 6 * Abs(p1)))
  {
    if p2 == 0 then Err(DivideByZero)
    else if Quot(p1, p2) > Threshold then
      assert p1 != 0 && TwoAxes(p1, p2);
      Ok(true)
    else if p1 == 0 then Err(DivideByZero)
    else Ok(TwoAxes(p1, p2))
  }

  /** Lines 231-234: `percentile95(samples1)` first, then
      `percentile95(samples2)`, then the ratio test. An empty bucket list
      panics on the index before any division. */
  function AxisDecision(s1: seq<Sample>, s2: seq<Sample>): (r: Result<bool>)
    ensures r == Err(IndexOutOfRange) <==> s1 == [] || s2 == []
    ensures r == Err(DivideByZero) <==> s1 != [] && s2 != [] && (P95(s1) == 0 || P95(s2) == 0)
    ensures r.Ok? || r == Err(IndexOutOfRange) || r == Err(DivideByZero)
    ensures r.Ok? ==> s1 != [] && s2 != [] && P95(s1) != 0 && P95(s2) != 0
    ensures r.Ok? ==>
      (r.value <==> (P95(s1) > 0 <==> P95(s2) > 0) && (Abs(P95(s1)) >= 6 * Abs(P95(s2)) || Abs(P95(s2)) >= 6 * Abs(P95(s1))))
  {
    if s1 == [] || s2 == [] then Err(IndexOutOfRange)
    else RatioTest(P95(s1), P95(s2))
  }

  /** The two-series request: both slices sorted and checked for data, the
      duration chosen from the FIRST slice alone, both resampled with it. */
  function TwoSeries(raw1: seq<int>, raw2: seq<int>, requested: int, multiply: int, cumulative: bool): (r: Result<Chart>)
    requires requested == 0 ==> SpanFits(raw1)
    ensures r == Err(NoData) <==> raw1 == [] || raw2 == []
    ensures r.Ok? ==> raw1 != [] && raw2 != [] && Series(raw1, requested, multiply, cumulative) == Ok(r.value.data1)
    ensures r.Ok? ==> AxisDecision(r.value.data1, r.value.data2) == Ok(r.value.twoAxes)
    ensures raw1 != [] && raw2 != [] ==>
      var d := DurationFor(raw1, requested);
      var s1 := Resample(SortAscending(raw1), d, multiply, cumulative);
      var s2 := Resample(SortAscending(raw2), d, multiply, cumulative);
      var a := AxisDecision(s1, s2);
      && (r.Ok? <==> a.Ok?)
      && (a.Err? ==> r == Err(a.failure))
      && (a.Ok? ==> r == Ok(Chart(s1, s2, a.value)))
  {
    SortedSpan(raw1);
    SortedSpan(raw2);
    var times1 := SortAscending(raw1);
    if times1 == [] then Err(NoData)
    else
      var times2 := SortAscending(raw2);
      if times2 == [] then Err(NoData)
      else
        var d := DurationFor(raw1, requested);
        var s1 := Resample(times1, d, multiply, cumulative);
        var s2 := Resample(times2, d, multiply, cumulative);
        assert Series(raw1, requested, multiply, cumulative) == Ok(s1);
        var decision := AxisDecision(s1, s2);
        if decision.Ok? then Ok(Chart(s1, s2, decision.value)) else Err(decision.failure)
  }

  /** A first file with a single timestamp resamples to no buckets when the
      width is at least one millisecond (always so for an inferred width), so
      the two-series request panics on `percentile95`'s index, whatever the
      second file holds. */
  lemma SingleTimestampFirstSeriesPanics(t: int, raw2: seq<int>, requested: int, multiply: int, cumulative: bool)
    requires raw2 != []
    requires requested == 0 || WidthMs(requested) >= 1
    ensures TwoSeries([t], raw2, requested, multiply, cumulative) == Err(IndexOutOfRange)
  {
    SortIdentity([t]);
    var d := DurationFor([t], requested);
    assert WidthMs(d) >= 1 by {
      if requested == 0 {
        assert d == ChooseDuration(0, [t]);
      }
    }
    var s1 := Resample([t], d, multiply, cumulative);
    assert s1 == [];
    var s2 := Resample(SortAscending(raw2), d, multiply, cumulative);
    assert AxisDecision(s1, s2) == Err(IndexOutOfRange);
  }

  /** The second series is bucketed as if the request had named the duration
      chosen for the first series: its own span plays no part. */
  lemma SecondSeriesUsesFirstDuration(raw1: seq<int>, raw2: seq<int>, requested: int, multiply: int, cumulative: bool)
    requires requested == 0 ==> SpanFits(raw1)
    ensures var r := TwoSeries(raw1, raw2, requested, multiply, cumulative);
      r.Ok? ==>
        && raw1 != []
        && Series(raw2, DurationFor(raw1, requested), multiply, cumulative) == Ok(r.value.data2)
  {
    var r := TwoSeries(raw1, raw2, requested, multiply, cumulative);
    if r.Ok? {
      SortedSpan(raw1);
      SortedSpan(raw2);
      var times1, times2 := SortAscending(raw1), SortAscending(raw2);
      var d := DurationFor(raw1, requested);
      assert r.value.data2 == Resample(times2, d, multiply, cumulative);
      assert DurationFor(raw2, d) == d;
    }
  }

  /** With `multiply >= 1`, a width of at least one millisecond and fewer
      than 20 buckets, the percentile is the largest count, which is at least
      the first bucket's count, hence at least `multiply`: no division by
      zero can come from such a series. */
  lemma ShortSeriesPercentilePositive(times: seq<int>, d: int, multiply: int, cumulative: bool)
    requires WidthMs(d) >= 1 && multiply >= 1
    requires 0 < |Resample(times, d, multiply, cumulative)| < 20
    ensures P95(Resample(times, d, multiply, cumulative)) >= multiply
  {
    var r := Resample(times, d, multiply, cumulative);
    FirstBucketCount(times, d, multiply, cumulative);
    P95OfShortSeries(r);
    assert r[0].count <= P95(r);
  }
}

=== FILE: percentile.dfy ===
/**
 `percentile95` of `graph.go`: sort a copy of the buckets by count, highest
 first, and read the count at index `len / 20`.

 The result is characterised without reference to the sort: it is the count
 `p` such that more than `len / 20` buckets reach `p` and at most `len / 20`
 exceed it. That makes the tie order of Go's unstable `sort.Slice`
 irrelevant. Sequences are values, so the caller's buckets are untouched, as
 in the source, which sorts a copy.
 */
module Percentile {
  import opened Resampling

  /** Counts are in non-increasing order. */
  predicate DescendingByCount(s: seq<Sample>) {
    forall i, j :: 0 <= i < j < |s| ==> s[i].count >= s[j].count
  }

  /** Number of buckets of `s` whose count is at least `x`. */
  function AtLeast(s: seq<Sample>, x: int): (n: nat)
    ensures n <= |s|
  {
    if s == [] then 0 else (if s[0].count >= x then 1 else 0) + AtLeast(s[1..], x)
  }

  /** Inserts `y` into `s` before the first bucket whose count it reaches. */
  function InsertByCount(y: Sample, s: seq<Sample>): (r: seq<Sample>)
    requires DescendingByCount(s)
    ensures DescendingByCount(r)
    ensures multiset(r) == multiset(s) + multiset{y}
    ensures |r| == |s| + 1
    ensures r[0] == y || (s != [] && r[0] == s[0])
  {
    if s == [] || y.count >= s[0].count then
      DescendingCons(y, s);
      [y] + s
    else
      var rest := InsertByCount(y, s[1..]);
      DescendingCons(s[0], rest);
      assert multiset([s[0]] + rest) == multiset(s) + multiset{y} by {
        assert s == [s[0]] + s[1..];
      }
      [s[0]] + rest
  }

  /** A bucket reaching the head's count extends a descending sequence. */
  lemma DescendingCons(x: Sample, s: seq<Sample>)
    requires DescendingByCount(s)
    requires s == [] || x.count >= s[0].count
    ensures DescendingByCount([x] + s)
  {
  }

  /** Inserting `y` adds one to the tally of every threshold `y` reaches. */
  lemma {:induction false} AtLeastInsert(y: Sample, s: seq<Sample>, x: int)
    requires DescendingByCount(s)
    ensures AtLeast(InsertByCount(y, s), x) == AtLeast(s, x) + (if y.count >= x then 1 else 0)
  {
    var r := InsertByCount(y, s);
    if s == [] || y.count >= s[0].count {
      assert r[1..] == s;
    } else {
      AtLeastInsert(y, s[1..], x);
      assert r[1..] == InsertByCount(y, s[1..]);
    }
  }

  /** The buckets of `s` ordered by count, highest first. */
  function SortByCountDescending(s: seq<Sample>): (r: seq<Sample>)
    ensures DescendingByCount(r)
    ensures multiset(r) == multiset(s)
  {
    if s == [] then []
    else
      assert s == [s[0]] + s[1..];
      InsertByCount(s[0], SortByCountDescending(s[1..]))
  }

  /** Sorting does not change how many buckets reach any threshold. */
  lemma {:induction false} AtLeastSorted(s: seq<Sample>, x: int)
    ensures AtLeast(SortByCountDescending(s), x) == AtLeast(s, x)
  {
    if s != [] {
      AtLeastSorted(s[1..], x);
      AtLeastInsert(s[0], SortByCountDescending(s[1..]), x);
    }
  }

  /** If no count of `s` reaches `x`, none is counted. */
  lemma {:induction false} AtLeastNone(s: seq<Sample>, x: int)
    requires forall i :: 0 <= i < |s| ==> s[i].count < x
    ensures AtLeast(s, x) == 0
  {
    if s != [] {
      AtLeastNone(s[1..], x);
    }
  }

  /** If no count is counted at `x`, every count is below `x`. */
  lemma {:induction false} AtLeastZero(s: seq<Sample>, x: int)
    requires AtLeast(s, x) == 0
    ensures forall i :: 0 <= i < |s| ==> s[i].count < x
  {
    if s != [] {
      AtLeastZero(s[1..], x);
      forall i | 1 <= i < |s| ensures s[i].count < x {
        assert s[i] == s[1..][i - 1];
      }
    }
  }

  /** Raising the threshold never counts more buckets. */
  lemma {:induction false} AtLeastAntitone(s: seq<Sample>, x: int, y: int)
    requires x <= y
    ensures AtLeast(s, y) <= AtLeast(s, x)
  {
    if s != [] {
      AtLeastAntitone(s[1..], x, y);
    }
  }

  /** In a descending sequence the count at index `k` is reached by the first
      `k + 1` buckets and exceeded by at most `k`. */
  lemma {:induction false} RankInDescending(v: seq<Sample>, k: nat)
    requires DescendingByCount(v)
    requires k < |v|
    ensures AtLeast(v, v[k].count) >= k + 1
    ensures AtLeast(v, v[k].count + 1) <= k
  {
    if k == 0 {
      AtLeastNone(v, v[0].count + 1);
    } else {
      var tail := v[1..];
      assert tail[k - 1] == v[k];
      RankInDescending(tail, k - 1);
    }
  }

  /** `percentile95`: the count at index `len / 20` of the buckets sorted by
      count, highest first. It is one of the input counts, reached by more
      than `len / 20` buckets and exceeded by at most `len / 20`. */
  function P95(values: seq<Sample>): (p: int)
    requires |values| > 0
    ensures exists i :: 0 <= i < |values| && values[i].count == p
    ensures AtLeast(values, p) > |values| / 20
    ensures AtLeast(values, p + 1) <= |values| / 20
  {
    var v := SortByCountDescending(values);
    AtLeastSortedAll(values);
    RankOfPermutation(values, v, |values| / 20);
    v[|values| / 20].count
  }

  /** `AtLeastSorted` for every threshold at once. */
  lemma AtLeastSortedAll(s: seq<Sample>)
    ensures forall x :: AtLeast(SortByCountDescending(s), x) == AtLeast(s, x)
  {
    forall x {
      AtLeastSorted(s, x);
    }
  }

  /** In a descending rearrangement `v` of `values`, the count at index `k`
      is one of the input counts, reached by more than `k` buckets and
      exceeded by at most `k`. */
  lemma RankOfPermutation(values: seq<Sample>, v: seq<Sample>, k: nat)
    requires DescendingByCount(v)
    requires multiset(v) == multiset(values)
    requires forall x :: AtLeast(v, x) == AtLeast(values, x)
    requires k < |values|
    ensures k < |v|
    ensures exists i :: 0 <= i < |values| && values[i].count == v[k].count
    ensures AtLeast(values, v[k].count) > k
    ensures AtLeast(values, v[k].count + 1) <= k
  {
    assert |v| == |multiset(v)| == |values|;
    assert v[k] in multiset(values);
    RankInDescending(v, k);
    assert AtLeast(values, v[k].count) == AtLeast(v, v[k].count);
    assert AtLeast(values, v[k].count + 1) == AtLeast(v, v[k].count + 1);
  }

  /** Under 20 buckets `len / 20` is 0, so the percentile is the largest
      count. */
  lemma P95OfShortSeries(values: seq<Sample>)
    requires 0 < |values| < 20
    ensures forall i :: 0 <= i < |values| ==> values[i].count <= P95(values)
    ensures exists i :: 0 <= i < |values| && values[i].count == P95(values)
  {
    AtLeastZero(values, P95(values) + 1);
  }

  /** The rank conditions pin the percentile down: any count reached by more
      than `len / 20` buckets and exceeded by at most `len / 20` is `P95`,
      whatever order a sort leaves equal counts in. */
  lemma P95Unique(values: seq<Sample>, x: int)
    requires |values| > 0
    requires AtLeast(values, x) > |values| / 20
    requires AtLeast(values, x + 1) <= |values| / 20
    ensures x == P95(values)
  {
    var p := P95(values);
    if x > p {
      AtLeastAntitone(values, p + 1, x);
    } else if x < p {
      AtLeastAntitone(values, x + 1, p);
    }
  }
}

=== FILE: resample_props.dfy ===
/**
 Properties of the resampling fold.

 Each public lemma is about `Resample` (or the bucket it drops); the `Run...`
 lemmas are the fold invariants they rest on, proved by induction over the
 prefix of timestamps already visited.
 */
module ResampleProperties {
  import opened GoInt
  import opened Durations
  import opened Sorting
  import opened Resampling

  /** Total of the counts of `s`. */
  function SumCounts(s: seq<Sample>): int
    decreases |s|
  {
    if s == [] then 0 else SumCounts(s[..|s| - 1]) + s[|s| - 1].count
  }

  /** Number of timestamps of `ts` strictly before `x`. */
  function Below(ts: seq<int>, x: int): (n: nat)
    ensures n <= |ts|
    decreases |ts|
  {
    if ts == [] then 0 else Below(ts[..|ts| - 1], x) + (if ts[|ts| - 1] < x then 1 else 0)
  }

  /** Number of timestamps of `ts` in the window `[lo, hi)`. */
  function InWindow(ts: seq<int>, lo: int, hi: int): nat
    decreases |ts|
  {
    if ts == [] then 0 else InWindow(ts[..|ts| - 1], lo, hi) + (if lo <= ts[|ts| - 1] < hi then 1 else 0)
  }

  // ---------------------------------------------------------------------
  // Shape of the output: where buckets start
  // ---------------------------------------------------------------------

  /** With a width of at least one millisecond the fold keeps: the first
      bucket starts at `start`, and any two buckets, emitted or open, start
      at least one width apart in emission order. */
  lemma {:induction false} RunShape(start: int, ts: seq<int>, width: int, multiply: int, cumulative: bool)
    requires width >= 1
    ensures var b := Run(start, ts, width, multiply, cumulative);
      && (b.emitted == [] ==> b.open.time == start)
      && (b.emitted != [] ==> b.emitted[0].time == start)
      && (forall i, j :: 0 <= i < j < |b.emitted| ==> b.emitted[i].time + width <= b.emitted[j].time)
      && (forall i :: 0 <= i < |b.emitted| ==> b.emitted[i].time + width <= b.open.time)
    decreases |ts|
  {
    if ts != [] {
      var p, t := ts[..|ts| - 1], ts[|ts| - 1];
      RunShape(start, p, width, multiply, cumulative);
      var b := Run(start, p, width, multiply, cumulative);
      var b' := Run(start, ts, width, multiply, cumulative);
      assert b' == Step(b, t, width, multiply, cumulative);
      if t >= b.open.time + width {
        assert b'.emitted == b.emitted + [b.open] && b'.open.time == t;
        forall i, j | 0 <= i < j < |b'.emitted|
          ensures b'.emitted[i].time + width <= b'.emitted[j].time
        {
          if j == |b.emitted| {
            assert b'.emitted[j] == b.open;
          }
        }
      }
    }
  }

  /** Every bucket start, emitted or open, is `start` or a visited
      timestamp. */
  lemma {:induction false} RunStartsVisited(start: int, ts: seq<int>, width: int, multiply: int, cumulative: bool)
    ensures var b := Run(start, ts, width, multiply, cumulative);
      && (b.open.time == start || b.open.time in ts)
      && (forall i :: 0 <= i < |b.emitted| ==> b.emitted[i].time == start || b.emitted[i].time in ts)
    decreases |ts|
  {
    if ts != [] {
      var p, t := ts[..|ts| - 1], ts[|ts| - 1];
      assert ts == p + [t];
      RunStartsVisited(start, p, width, multiply, cumulative);
    }
  }

  /** The emitted buckets fit between `start` and the open bucket's start:
      each of them takes up at least one width. */
  lemma {:induction false} RunWidthsFit(start: int, ts: seq<int>, width: int, multiply: int, cumulative: bool)
    requires width >= 1
    ensures var b := Run(start, ts, width, multiply, cumulative);
      |b.emitted| * width <= b.open.time - start
    decreases |ts|
  {
    if ts != [] {
      var p, t := ts[..|ts| - 1], ts[|ts| - 1];
      RunWidthsFit(start, p, width, multiply, cumulative);
      var b := Run(start, p, width, multiply, cumulative);
      if t >= b.open.time + width {
        assert (|b.emitted| + 1) * width == |b.emitted| * width + width;
      }
    }
  }

  /** For a width of at least one millisecond: the first bucket starts at the
      first timestamp, bucket starts strictly increase and lie at least one
      width apart, and each start is one of the input timestamps. None of this
      needs sorted input. */
  lemma ResampleStarts(times: seq<int>, d: int, multiply: int, cumulative: bool)
    requires WidthMs(d) >= 1
    ensures var r := Resample(times, d, multiply, cumulative);
      && (r != [] ==> r[0].time == times[0])
      && (forall i, j :: 0 <= i < j < |r| ==> r[i].time + WidthMs(d) <= r[j].time)
      && (forall i, j :: 0 <= i < j < |r| ==> r[i].time < r[j].time)
      && (forall i :: 0 <= i < |r| ==> r[i].time in times)
  {
    if times != [] {
      RunShape(times[0], times, WidthMs(d), multiply, cumulative);
      RunStartsVisited(times[0], times, WidthMs(d), multiply, cumulative);
    }
  }

  /** For sorted input, the emitted buckets need at least `|r|` widths of
      span: `|r| * width <= last - first`. */
  lemma ResampleSpanBound(times: seq<int>, d: int, multiply: int, cumulative: bool)
    requires Ascending(times) && times != []
    requires WidthMs(d) >= 1
    ensures |Resample(times, d, multiply, cumulative)| * WidthMs(d) <= times[|times| - 1] - times[0]
  {
    RunStartsVisited(times[0], times, WidthMs(d), multiply, cumulative);
    RunWidthsFit(times[0], times, WidthMs(d), multiply, cumulative);
    var b := Run(times[0], times, WidthMs(d), multiply, cumulative);
    assert b.open.time <= times[|times| - 1];
  }

  // ---------------------------------------------------------------------
  // The dropped open bucket
  // ---------------------------------------------------------------------

  /** Nothing is emitted exactly when every visited timestamp lies before the
      end of the first window. */
  lemma {:induction false} RunEmptyIff(start: int, ts: seq<int>, width: int, multiply: int, cumulative: bool)
    ensures var b := Run(start, ts, width, multiply, cumulative);
      (b.emitted == [] <==> forall i :: 0 <= i < |ts| ==> ts[i] < start + width)
      && (b.emitted == [] ==> b.open.time == start)
    decreases |ts|
  {
    if ts != [] {
      var p, t := ts[..|ts| - 1], ts[|ts| - 1];
      assert ts == p + [t];
      RunEmptyIff(start, p, width, multiply, cumulative);
      var b := Run(start, p, width, multiply, cumulative);
      if b.emitted == [] && t < start + width {
        forall i | 0 <= i < |ts| ensures ts[i] < start + width {
          if i < |p| { assert ts[i] == p[i]; }
        }
      }
      if b.emitted != [] {
        var k :| 0 <= k < |p| && !(p[k] < start + width);
        assert ts[k] == p[k];
      }
    }
  }

  /** `resample` returns nothing exactly when every timestamp lies before
      `times[0] + width`: a lone window is the bucket left open at the end. */
  lemma ResampleEmptyIffOneWindow(times: seq<int>, d: int, multiply: int, cumulative: bool)
    requires times != []
    ensures Resample(times, d, multiply, cumulative) == [] <==>
      forall i :: 0 <= i < |times| ==> times[i] < times[0] + WidthMs(d)
  {
    RunEmptyIff(times[0], times, WidthMs(d), multiply, cumulative);
  }

  // ---------------------------------------------------------------------
  // Counts
  // ---------------------------------------------------------------------

  /** Delta mode: every visited timestamp either adds `multiply` to the open
      bucket or closes it, appending it and opening the next, so the emitted
      counts plus the open count are `multiply` times the number of
      timestamps that closed no bucket. */
  lemma {:induction false} RunConservation(start: int, ts: seq<int>, width: int, multiply: int)
    ensures var b := Run(start, ts, width, multiply, false);
      SumCounts(b.emitted) + b.open.count == multiply * (|ts| - |b.emitted|)
    decreases |ts|
  {
    if ts != [] {
      var p, t := ts[..|ts| - 1], ts[|ts| - 1];
      RunConservation(start, p, width, multiply);
      var b := Run(start, p, width, multiply, false);
      if t < b.open.time + width {
        assert multiply * (|p| + 1 - |b.emitted|) == multiply * (|p| - |b.emitted|) + multiply;
      } else {
        var e := b.emitted + [b.open];
        assert e[..|e| - 1] == b.emitted;
        assert multiply * (|p| + 1 - |e|) == multiply * (|p| - |b.emitted|);
      }
    }
  }

  /** Delta-mode accounting: what the emitted buckets hold plus what the
      dropped bucket holds is `multiply` for each timestamp that did not close
      a bucket. The `|r|` timestamps that each append a bucket and open the
      next one (the last of them opens the dropped bucket) are not counted. */
  lemma DeltaConservation(times: seq<int>, d: int, multiply: int)
    requires times != []
    ensures var r := Resample(times, d, multiply, false);
      SumCounts(r) + DroppedBucket(times, d, multiply, false).count == multiply * (|times| - |r|)
  {
    RunConservation(times[0], times, WidthMs(d), multiply);
  }

  /** The fold with factor `multiply` is the fold with factor 1 with every
      count scaled by `multiply`; the factor-1 counts are non-negative. */
  lemma {:induction false} RunScales(start: int, ts: seq<int>, width: int, multiply: int, cumulative: bool)
    ensures var b := Run(start, ts, width, multiply, cumulative);
      var u := Run(start, ts, width, 1, cumulative);
      && |b.emitted| == |u.emitted|
      && (forall i :: 0 <= i < |b.emitted| ==>
            b.emitted[i].time == u.emitted[i].time && b.emitted[i].count == multiply * u.emitted[i].count
            && u.emitted[i].count >= 0)
      && b.open.time == u.open.time
      && b.open.count == multiply * u.open.count
      && u.open.count >= 0
    decreases |ts|
  {
    if ts != [] {
      var p, t := ts[..|ts| - 1], ts[|ts| - 1];
      RunScales(start, p, width, multiply, cumulative);
      var u := Run(start, p, width, 1, cumulative);
      assert multiply * (u.open.count + 1) == multiply * u.open.count + multiply;
    }
  }

  /** `multiply` only scales the counts: bucket starts and their number do not
      depend on it, and every count is `multiply` times a non-negative count
      (so in delta mode a non-negative multiple of `multiply`). */
  lemma MultiplyScales(times: seq<int>, d: int, multiply: int, cumulative: bool)
    ensures var r := Resample(times, d, multiply, cumulative);
      var u := Resample(times, d, 1, cumulative);
      && |r| == |u|
      && forall i :: 0 <= i < |r| ==> r[i].time == u[i].time && r[i].count == multiply * u[i].count && u[i].count >= 0
  {
    if times != [] {
      RunScales(times[0], times, WidthMs(d), multiply, cumulative);
    }
  }

  /** Delta mode with `multiply >= 0`: the emitted counts total at most
      `multiply * (|times| - |r|)`; the shortfall is the dropped bucket. */
  lemma DeltaCountBound(times: seq<int>, d: int, multiply: int)
    requires multiply >= 0
    ensures var r := Resample(times, d, multiply, false);
      0 <= SumCounts(r) <= multiply * (|times| - |r|)
  {
    var r := Resample(times, d, multiply, false);
    if times != [] {
      DeltaConservation(times, d, multiply);
      MultiplyScales(times, d, multiply, false);
      RunScales(times[0], times, WidthMs(d), multiply, false);
      var u := Run(times[0], times, WidthMs(d), 1, false);
      ProductNonNegative(multiply, u.open.count);
      forall i | 0 <= i < |r| ensures r[i].count >= 0 {
        ProductNonNegative(multiply, Resample(times, d, 1, false)[i].count);
      }
      NonNegativeCountsSum(r);
    }
  }

  lemma ProductNonNegative(a: int, b: int)
    requires a >= 0 && b >= 0
    ensures a * b >= 0
  {
  }

  /** A sum of non-negative counts is non-negative. */
  lemma {:induction false} NonNegativeCountsSum(s: seq<Sample>)
    requires forall i :: 0 <= i < |s| ==> s[i].count >= 0
    ensures SumCounts(s) >= 0
    decreases |s|
  {
    if s != [] {
      NonNegativeCountsSum(s[..|s| - 1]);
    }
  }

  /** With a width of at least one millisecond the first visited timestamp
      is counted into the first bucket, and with `multiply >= 0` counts only
      grow until the bucket is emitted. */
  lemma {:induction false} RunFirstBucket(start: int, ts: seq<int>, width: int, multiply: int, cumulative: bool)
    requires width >= 1 && multiply >= 0
    requires ts != [] ==> ts[0] == start
    ensures var b := Run(start, ts, width, multiply, cumulative);
      && (b.emitted != [] ==> b.emitted[0].count >= multiply)
      && (b.emitted == [] && ts != [] ==> b.open.count >= multiply)
      && b.open.count >= 0
    decreases |ts|
  {
    if ts != [] {
      var p := ts[..|ts| - 1];
      RunFirstBucket(start, p, width, multiply, cumulative);
      RunShape(start, p, width, multiply, cumulative);
      var b := Run(start, p, width, multiply, cumulative);
      var b' := Run(start, ts, width, multiply, cumulative);
      if b'.emitted != [] && b.emitted == [] {
        assert b'.emitted[0] == b.open;
        assert p != [];
      }
    }
  }

  /** With a width of at least one millisecond and `multiply >= 0`, the first
      emitted bucket holds at least `multiply`: it counts its own opening
      timestamp. */
  lemma FirstBucketCount(times: seq<int>, d: int, multiply: int, cumulative: bool)
    requires WidthMs(d) >= 1 && multiply >= 0
    ensures var r := Resample(times, d, multiply, cumulative);
      r != [] ==> r[0].count >= multiply
  {
    if times != [] {
      RunFirstBucket(times[0], times, WidthMs(d), multiply, cumulative);
    }
  }

  /** Cumulative mode with `multiply >= 0`: counts never fall, so they are
      ordered along the fold and bounded by the open bucket's count. */
  lemma {:induction false} RunCumulative(start: int, ts: seq<int>, width: int, multiply: int)
    requires multiply >= 0
    ensures var b := Run(start, ts, width, multiply, true);
      && (forall i, j :: 0 <= i < j < |b.emitted| ==> 0 <= b.emitted[i].count <= b.emitted[j].count)
      && (forall i :: 0 <= i < |b.emitted| ==> 0 <= b.emitted[i].count <= b.open.count)
      && b.open.count >= 0
    decreases |ts|
  {
    if ts != [] {
      RunCumulative(start, ts[..|ts| - 1], width, multiply);
    }
  }

  /** Cumulative mode with `multiply >= 0`: emitted counts are non-negative
      and non-decreasing. */
  lemma CumulativeNonDecreasing(times: seq<int>, d: int, multiply: int)
    requires multiply >= 0
    ensures var r := Resample(times, d, multiply, true);
      forall i, j :: 0 <= i < j < |r| ==> 0 <= r[i].count <= r[j].count
  {
    if times != [] {
      RunCumulative(times[0], times, WidthMs(d), multiply);
    }
  }

  // ---------------------------------------------------------------------
  // Counts of sorted input, against a counting definition
  // ---------------------------------------------------------------------

  /** If every timestamp of `ts` is before `x`, none lies in a window that
      starts at `x` or later, and all of them are below `x`. */
  lemma {:induction false} AllBefore(ts: seq<int>, x: int, lo: int, hi: int)
    requires forall k :: 0 <= k < |ts| ==> ts[k] < x
    requires x <= lo
    ensures InWindow(ts, lo, hi) == 0
    ensures Below(ts, x) == |ts|
    decreases |ts|
  {
    if ts != [] {
      AllBefore(ts[..|ts| - 1], x, lo, hi);
    }
  }

  /** The count a bucket emitted `i`-th with start `s` holds: in delta mode
      `multiply` per timestamp of its window except its opener (the first
      bucket's opener is counted); in cumulative mode `multiply` per
      timestamp before its end except the `i` openers so far. */
  function ExpectedCount(ts: seq<int>, s: int, i: int, width: int, multiply: int, cumulative: bool): int {
    if cumulative then multiply * (Below(ts, s + width) - i)
    else multiply * (InWindow(ts, s, s + width) - (if i == 0 then 0 else 1))
  }

  /** The fold invariant behind `ResampleCounts`: every visited timestamp is
      before the open bucket's end, the open bucket holds what its window
      (delta) or the whole prefix (cumulative) contributed, and each emitted
      bucket holds its `ExpectedCount`. */
  ghost predicate CountsAgree(p: seq<int>, b: Bucketing, width: int, multiply: int, cumulative: bool) {
    && (forall k :: 0 <= k < |p| ==> p[k] < b.open.time + width)
    && (cumulative ==> b.open.count == multiply * (|p| - |b.emitted|))
    && (!cumulative ==> b.open.count == multiply * (InWindow(p, b.open.time, b.open.time + width) - (if b.emitted == [] then 0 else 1)))
    && forall i :: 0 <= i < |b.emitted| ==> b.emitted[i].count == ExpectedCount(p, b.emitted[i].time, i, width, multiply, cumulative)
  }

  /** Appending a timestamp at or after every window already closed leaves
      their expected counts unchanged. */
  lemma ClosedBucketsStable(p: seq<int>, t: int, b: Bucketing, width: int, multiply: int, cumulative: bool)
    requires forall i :: 0 <= i < |b.emitted| ==> b.emitted[i].time + width <= t
    ensures forall i :: 0 <= i < |b.emitted| ==>
      ExpectedCount(p + [t], b.emitted[i].time, i, width, multiply, cumulative)
        == ExpectedCount(p, b.emitted[i].time, i, width, multiply, cumulative)
  {
    assert (p + [t])[..|p|] == p;
  }

  /** `CountsAgree` survives a timestamp that falls in the open bucket. */
  lemma CountsStepInside(p: seq<int>, t: int, b: Bucketing, width: int, multiply: int, cumulative: bool)
    requires width >= 1
    requires CountsAgree(p, b, width, multiply, cumulative)
    requires forall i :: 0 <= i < |b.emitted| ==> b.emitted[i].time + width <= b.open.time
    requires b.open.time <= t < b.open.time + width
    ensures CountsAgree(p + [t], Step(b, t, width, multiply, cumulative), width, multiply, cumulative)
  {
    var ts := p + [t];
    assert ts[..|p|] == p;
    ClosedBucketsStable(p, t, b, width, multiply, cumulative);
    var b' := Step(b, t, width, multiply, cumulative);
    assert b'.emitted == b.emitted && b'.open.time == b.open.time;
    assert multiply * (|ts| - |b.emitted|) == multiply * (|p| - |b.emitted|) + multiply;
    var opener := if b.emitted == [] then 0 else 1;
    var n: int := InWindow(p, b.open.time, b.open.time + width);
    assert InWindow(ts, b.open.time, b.open.time + width) == n + 1;
    assert multiply * (n + 1 - opener) == multiply * (n - opener) + multiply;
  }

  /** `CountsAgree` survives a timestamp that closes the open bucket. */
  lemma CountsStepClose(p: seq<int>, t: int, b: Bucketing, width: int, multiply: int, cumulative: bool)
    requires width >= 1
    requires CountsAgree(p, b, width, multiply, cumulative)
    requires forall i :: 0 <= i < |b.emitted| ==> b.emitted[i].time + width <= b.open.time
    requires b.open.time + width <= t
    ensures CountsAgree(p + [t], Step(b, t, width, multiply, cumulative), width, multiply, cumulative)
  {
    var ts := p + [t];
    assert ts[..|p|] == p;
    ClosedBucketsStable(p, t, b, width, multiply, cumulative);
    var k := |b.emitted|;
    var b' := Step(b, t, width, multiply, cumulative);
    assert b'.emitted == b.emitted + [b.open];
    AllBefore(p, b.open.time + width, t, t + width);
    AllBefore(p, b.open.time + width, b.open.time + width, b.open.time + width);
    assert InWindow(ts, t, t + width) == 1;
    assert Below(ts, b.open.time + width) == |p|;
    assert InWindow(ts, b.open.time, b.open.time + width) == InWindow(p, b.open.time, b.open.time + width);
    assert multiply * (|ts| - (k + 1)) == multiply * (|p| - k);
    assert b'.emitted[k].count == ExpectedCount(ts, b'.emitted[k].time, k, width, multiply, cumulative);
  }

  lemma {:induction false} RunCounts(start: int, ts: seq<int>, width: int, multiply: int, cumulative: bool)
    requires width >= 1
    requires Ascending(ts)
    requires ts != [] ==> ts[0] == start
    ensures CountsAgree(ts, Run(start, ts, width, multiply, cumulative), width, multiply, cumulative)
    decreases |ts|
  {
    if ts != [] {
      var p, t := ts[..|ts| - 1], ts[|ts| - 1];
      assert ts == p + [t];
      RunCounts(start, p, width, multiply, cumulative);
      RunShape(start, p, width, multiply, cumulative);
      RunStartsVisited(start, p, width, multiply, cumulative);
      var b := Run(start, p, width, multiply, cumulative);
      // sorted input: the new timestamp is not before the open bucket's start
      assert b.open.time <= t by {
        if b.open.time != start {
          var k :| 0 <= k < |p| && p[k] == b.open.time;
          assert ts[k] == p[k];
        }
      }
      if t < b.open.time + width {
        CountsStepInside(p, t, b, width, multiply, cumulative);
      } else {
        CountsStepClose(p, t, b, width, multiply, cumulative);
      }
    }
  }

  /** For sorted input and a width of at least one millisecond, each emitted
      bucket `r[i]` holds, in delta mode, `multiply` for each timestamp of its
      window `[r[i].time, r[i].time + width)` except its opening timestamp
      (which bucket 0 does count), and in cumulative mode `multiply` for each
      timestamp before its end except the `i` timestamps that opened buckets
      1 to `i`. */
  lemma ResampleCounts(times: seq<int>, d: int, multiply: int, cumulative: bool)
    requires Ascending(times)
    requires WidthMs(d) >= 1
    ensures var r := Resample(times, d, multiply, cumulative);
      var w := WidthMs(d);
      && (!cumulative ==> forall i :: 0 <= i < |r| ==>
            r[i].count == multiply * (InWindow(times, r[i].time, r[i].time + w) - (if i == 0 then 0 else 1)))
      && (cumulative ==> forall i :: 0 <= i < |r| ==>
            r[i].count == multiply * (Below(times, r[i].time + w) - i))
  {
    if times != [] {
      RunCounts(times[0], times, WidthMs(d), multiply, cumulative);
    }
  }

  // ---------------------------------------------------------------------
  // Widths below one millisecond
  // ---------------------------------------------------------------------

  lemma {:induction false} RunNoWidth(start: int, ts: seq<int>, width: int, multiply: int, cumulative: bool)
    requires width <= 0
    requires Ascending(ts)
    requires ts != [] ==> ts[0] == start
    ensures var b := Run(start, ts, width, multiply, cumulative);
      && |b.emitted| == |ts|
      && (forall i :: 0 <= i < |b.emitted| ==> b.emitted[i].count == 0)
      && (b.emitted != [] ==> b.emitted[0].time == start)
      && (forall i :: 1 <= i < |b.emitted| ==> b.emitted[i].time == ts[i - 1])
      && b.open.count == 0
      && b.open.time == (if ts == [] then start else ts[|ts| - 1])
    decreases |ts|
  {
    if ts != [] {
      var p := ts[..|ts| - 1];
      RunNoWidth(start, p, width, multiply, cumulative);
      if p != [] {
        assert p[|p| - 1] == ts[|p| - 1];
      }
    }
  }

  /** A duration below one millisecond truncates to a zero width (negative
      durations to a non-positive one): then every sorted timestamp closes a
      bucket and opens the next at itself, and every count is zero. The first
      timestamp closes the initial bucket, which also starts there, so
      `times[0]` starts two buckets; the last timestamp's bucket is the one
      dropped. */
  lemma ResampleSubMillisecond(times: seq<int>, d: int, multiply: int, cumulative: bool)
    requires Ascending(times)
    requires WidthMs(d) <= 0
    ensures var r := Resample(times, d, multiply, cumulative);
      && |r| == |times|
      && (forall i :: 0 <= i < |r| ==> r[i].count == 0)
      && (r != [] ==> r[0].time == times[0])
      && (forall i :: 1 <= i < |r| ==> r[i].time == times[i - 1])
  {
    if times != [] {
      RunNoWidth(times[0], times, WidthMs(d), multiply, cumulative);
    }
  }

  /** Half a millisecond over three timestamps: `0` starts two buckets, `10`
      one, and the bucket opened by `20` is dropped. */
  lemma SubMillisecondExample()
    ensures Resample([0, 10, 20], 500_000, 1, false) == [Sample(0, 0), Sample(0, 0), Sample(10, 0)]
  {
    var times := [0, 10, 20];
    assert WidthMs(500_000) == 0 by {
      QuotUnique(500_000, Millisecond, 0);
    }
    ResampleSubMillisecond(times, 500_000, 1, false);
  }
}

=== FILE: resampling.dfy ===
/**
 The resampling fold of `graph.go`.

 `resample` walks the timestamps once, keeping one open bucket. A timestamp
 before the open bucket's end adds `multiply` to its count; any other
 timestamp closes the open bucket, appends it to the output and opens a new
 bucket that starts at that timestamp. The new bucket's count restarts at zero
 in delta mode and carries the running total in cumulative mode. The opening
 timestamp itself is not counted, and the bucket open at the end is never
 appended.

 The function does not sort: callers sort first. Integers are unbounded here;
 Go's `int64` wrap-around of `Time + width` and of the counts is not modelled.
 */
module Resampling {
  import opened Durations

  /** A bucket: its start in milliseconds and its accumulated count
      (the source's `sample` struct). */
  datatype Sample = Sample(time: int, count: int)

  /** The state of the fold: the buckets emitted so far and the open one. */
  datatype Bucketing = Bucketing(emitted: seq<Sample>, open: Sample)

  /** The state the fold starts in: nothing emitted, an empty bucket open at
      the first timestamp. */
  function Initial(start: int): Bucketing {
    Bucketing([], Sample(start, 0))
  }

  /** One iteration of the loop body for timestamp `t`. */
  function Step(b: Bucketing, t: int, width: int, multiply: int, cumulative: bool): (b': Bucketing)
    ensures b'.emitted == b.emitted || b'.emitted == b.emitted + [b.open]
    ensures b'.emitted == b.emitted <==> t < b.open.time + width
  {
    if t < b.open.time + width then
      b.(open := b.open.(count := b.open.count + multiply))
    else
      Bucketing(b.emitted + [b.open], Sample(t, if cumulative then b.open.count else 0))
  }

  /** The fold over `ts`, left to right, from the state `Initial(start)`.
      It recurses on the prefix so that each step appends one timestamp. */
  function Run(start: int, ts: seq<int>, width: int, multiply: int, cumulative: bool): (b: Bucketing)
    ensures |b.emitted| <= |ts|
    ensures width >= 1 && ts != [] && ts[0] == start ==> |b.emitted| < |ts|
    decreases |ts|
  {
    if ts == [] then Initial(start)
    else Step(Run(start, ts[..|ts| - 1], width, multiply, cumulative), ts[|ts| - 1], width, multiply, cumulative)
  }

  /** `resample(times, d, multiply, cumulative)`: the emitted buckets. */
  function Resample(times: seq<int>, d: int, multiply: int, cumulative: bool): (r: seq<Sample>)
    ensures times == [] ==> r == []
    ensures WidthMs(d) >= 1 ==> |r| < |times| || times == []
  {
    if times == [] then []
    else Run(times[0], times, WidthMs(d), multiply, cumulative).emitted
  }

  /** The bucket still open when the loop ends, which `resample` drops. */
  function DroppedBucket(times: seq<int>, d: int, multiply: int, cumulative: bool): Sample
    requires times != []
  {
    Run(times[0], times, WidthMs(d), multiply, cumulative).open
  }

  /** The loop of `resample` as written, with its slice and open bucket. */
  method ResampleLoop(times: seq<int>, d: int, multiply: int, cumulative: bool) returns (samples: seq<Sample>)
    ensures samples == Resample(times, d, multiply, cumulative)
    ensures WidthMs(d) >= 1 && times != [] ==> |samples| < |times|
  {
    if |times| == 0 {
      return [];
    }
    samples := [];
    var current := Sample(times[0], 0);
    var width := WidthMs(d);
    var i := 0;
    while i < |times|
      invariant 0 <= i <= |times|
      invariant Bucketing(samples, current) == Run(times[0], times[..i], width, multiply, cumulative)
    {
      var t := times[i];
      assert times[..i + 1][..i] == times[..i];
      if t < current.time + width {
        current := current.(count := current.count + multiply);
        i := i + 1;
        continue;
      }
      samples := samples + [current];
      current := current.(time := t);
      if !cumulative {
        current := current.(count := 0);
      }
      i := i + 1;
    }
    assert times[..|times|] == times;
  }
}

=== FILE: sorting.dfy ===
/**
 Ascending sort of millisecond timestamps.

 The handler sorts every parsed timestamp slice before resampling it. Go's
 `sort.Slice` is not stable, but for plain integers any sort yields the same
 result: the model uses insertion sort and proves that an ascending
 permutation is unique.
 */
module Sorting {

  /** `s` is in non-decreasing order. */
  predicate Ascending(s: seq<int>) {
    forall i, j :: 0 <= i < j < |s| ==> s[i] <= s[j]
  }

  /** Inserts `x` into the ascending sequence `s`, before the first element it
      does not exceed. */
  function Insert(x: int, s: seq<int>): (r: seq<int>)
    requires Ascending(s)
    ensures Ascending(r)
    ensures multiset(r) == multiset(s) + multiset{x}
    ensures forall i :: 0 <= i < |r| ==> r[i] == x || r[i] in s
  {
    if s == [] || x <= s[0] then [x] + s
    else
      assert s == [s[0]] + s[1..];
      [s[0]] + Insert(x, s[1..])
  }

  /** The ascending arrangement of `ts`. */
  function SortAscending(ts: seq<int>): (r: seq<int>)
    ensures Ascending(r)
    ensures multiset(r) == multiset(ts)
  {
    if ts == [] then []
    else
      assert ts == [ts[0]] + ts[1..];
      Insert(ts[0], SortAscending(ts[1..]))
  }

  /** Two ascending sequences holding the same elements are equal: the sorted
      order of a slice does not depend on how it was arranged before. */
  lemma {:induction false} AscendingUnique(a: seq<int>, b: seq<int>)
    requires Ascending(a) && Ascending(b)
    requires multiset(a) == multiset(b)
    ensures a == b
  {
    assert |a| == |multiset(a)| == |multiset(b)| == |b|;
    if a != [] {
      assert a[0] in multiset(b);
      assert b[0] in multiset(a);
      assert a[0] == b[0];
      assert a == [a[0]] + a[1..];
      assert b == [b[0]] + b[1..];
      assert multiset(a) == multiset{a[0]} + multiset(a[1..]);
      assert multiset(b) == multiset{b[0]} + multiset(b[1..]);
      assert multiset(a[1..]) == multiset(a) - multiset{a[0]};
      assert multiset(b[1..]) == multiset(b) - multiset{b[0]};
      AscendingUnique(a[1..], b[1..]);
    }
  }

  /** Sorting is insensitive to the input's order. */
  lemma SortOrderIndependent(p: seq<int>, q: seq<int>)
    requires multiset(p) == multiset(q)
    ensures SortAscending(p) == SortAscending(q)
  {
    AscendingUnique(SortAscending(p), SortAscending(q));
  }

  /** Sorting an ascending sequence leaves it as it is. */
  lemma SortIdentity(ts: seq<int>)
    requires Ascending(ts)
    ensures SortAscending(ts) == ts
  {
    AscendingUnique(SortAscending(ts), ts);
  }
}
